=== FILE: README.md ===
# catalogico storefront core in Dafny

This project models the self-contained logic of a multi-tenant Django
storefront. Each store is served on its own subdomain. The parts modelled are:

- **the session cart** (`Cart`). This is a nested map store id → product id →
  quantity. Quantities are capped at 99, a store cart holds at most 50
  distinct lines on add, and non-positive entries are filtered out on read.
  The session is a value that is passed in and returned. The session's string
  keys are an injective encoding of the integer ids, so the model keys by `int`.
- **tenant resolution** (`Tenant`, `Settings`). The Host header is turned into
  a subdomain and then into an active store, the landing site, or a 404.
- **the `ars` price filter** (`Price`). It groups thousands with `.` and writes
  the decimals after `,`.
- **the product-link form check** (`LinkForm`), **the post-login redirect**
  (`Login`) and **the `owner_required` decision** (`OwnerAccess`). Each is a
  total function that returns an outcome value.
- **slug generation** (`Slugs`). `slugify` is a function parameter. The
  product table is the finite set of slugs already stored.
- **three browser scripts**, reduced to their index and sequence arithmetic:
  the gallery lightbox (`Gallery`), the FAQ drag-and-drop reorder (`FaqList`)
  and the quantity stepper (`QtyStepper`).

The helper modules are `Wrappers` (Option), `Decimal` (integer ↔ digit
string), `Text` (prefix/suffix, split, ASCII lower-casing) and `MapSum` (sum
of a map's values, independent of key order).

## Model

| member | source | states |
|---|---|---|
| Cart.Normalize | apps/catalog/cart.py:14-18 | exactly the positive entries survive, with their quantities; an empty cart gives an empty map |
| Cart.GetCart | apps/catalog/cart.py:21-26 | a product is in the store's cart iff it is stored there with a positive quantity; an absent store reads as empty |
| Cart.GetCartOfWellFormed | apps/catalog/cart.py:14-18 | on a session whose quantities are all in [1, 99], reading filters nothing out |
| Cart.CartCount | apps/catalog/cart.py:29-32 | the badge count is the sum of the normalized quantities (order-independent); it is at least the number of lines and is 0 iff the cart is empty |
| Cart.Add | apps/catalog/cart.py:35-57 | quantity ≤ 0 leaves the session unchanged; a new product on a store cart with ≥ 50 lines is dropped; otherwise the line becomes min(old + min(q, 99), 99); other lines and other stores are unchanged |
| Cart.AddAccumulates | apps/catalog/cart.py:55-56 | adding a then b units gives min(old + a + b, 99) (5 then 3 gives 8) |
| Cart.AddPreservesWellFormed | apps/catalog/cart.py:44-56 | on a well-formed session, add keeps every quantity in [1, 99] and every store within 50 lines |
| Cart.AddKeepsLineCap | apps/catalog/cart.py:47-50 | on any session, add never takes a store cart of at most 50 lines past 50 lines |
| Cart.Remove | apps/catalog/cart.py:60-70 | exactly product p of store s is deleted; it is a no-op if p or s is absent; other stores are unchanged |
| Cart.RemovePreservesWellFormed | apps/catalog/cart.py:60-70 | removing keeps quantities in range and the line count within the cap |
| Cart.Update | apps/catalog/cart.py:73-91 | q ≤ 0 is the same as remove; otherwise the line is set (not added) to min(q, 99) and created if absent; nothing else changes |
| Cart.UpdatePreservesQuantities | apps/catalog/cart.py:80-90 | update keeps every quantity in [1, 99] |
| Cart.UpdateIgnoresLineCap | apps/catalog/cart.py:83-90 | setting a new product always adds one line, even to a full store cart (update has no 50-line guard) |
| Cart.UpdateOfNewLineIsAdd | apps/catalog/cart.py:73-91 | for a new product in a cart with room, update and add give the same session |
| Cart.RemoveAndUpdateIdempotent | apps/catalog/cart.py:60-91 | removing twice or setting the same quantity twice equals doing it once |
| Cart.SetCart | apps/catalog/cart.py:94-102 | the store's cart is replaced by exactly the positive entries of the given map; other stores are unchanged |
| Cart.SetThenGet | apps/catalog/cart.py:94-101 | reading right after overwriting gives back the positive part of what was written, or the map itself when it is all positive |
| Cart.MutationsIsolated | apps/catalog/cart.py:47-50 | add, remove, update and overwrite on one store never change what another store reads |
| Settings.RootDomain | apps/core/middleware.py:18 | the ROOT_DOMAIN setting, or "catalogico.shop" when it is not set |
| Tenant.HostName | apps/core/middleware.py:17 | the compared host is the lower-cased prefix before the first ':': it holds no ':' and, when the header has one, stops exactly at it |
| Tenant.SubdomainUnique | apps/core/middleware.py:25-27 | the subdomain is the host with `.root` removed, and no other string splits the host that way |
| Tenant.Resolve | apps/core/middleware.py:14-35 | on the port-stripped, lower-cased host and root: the answer is 404 iff the host is sub.root for a sub other than "", "www" and every active slug; a store is attached iff sub is an active slug, and it is that store |
| Tenant.ResolveHost | apps/core/middleware.py:20-35 | root or www.root: continue without a store; sub.root with sub non-empty and not "www": the active store with that slug, or 404 if none; every other host continues without a store |
| Tenant.PortIgnored | apps/core/middleware.py:17 | appending ":port" to the Host header never changes the outcome |
| Tenant.CaseIgnored | apps/core/middleware.py:17-18 | the letter case of the Host header or of the root setting never changes the outcome |
| Price.TruncateCents | apps/catalog/templatetags/price_filters.py:8 | `int()` of a two-decimal amount truncates toward zero |
| Price.Ars | apps/catalog/templatetags/price_filters.py:9 | the text ends in ",00" and starts with '-' iff the value is negative |
| Price.ArsOfAmount | apps/catalog/templatetags/price_filters.py:5-9 | any amount is first truncated to an integer, so the output always ends in ",00" |
| Price.Group | apps/catalog/templatetags/price_filters.py:9 | the `,` grouping adds one separator per full group of three after the first: |g| = |d| + (|d| - 1) / 3 |
| Price.GroupShape | apps/catalog/templatetags/price_filters.py:9 | grouping puts a '.' exactly at every fourth position from the right and digits everywhere else, with a leading group of one to three digits |
| Price.GroupStripsBack | apps/catalog/templatetags/price_filters.py:9 | removing the dots from the grouped text gives back exactly the digits |
| Price.GroupHasDot | apps/catalog/templatetags/price_filters.py:9 | the grouped text contains a '.' iff there are more than three digits |
| Price.ArsShape | apps/catalog/templatetags/price_filters.py:9 | between the sign and ",00" are the digits of the magnitude grouped in threes from the right; there is a '.' iff the magnitude is ≥ 1000 |
| Price.ArsRoundTrip | apps/catalog/templatetags/price_filters.py:9 | deleting the dots and ",00" reads back the same integer, so no digit is lost and distinct values format differently |
| Price.RoundToDouble | apps/catalog/templatetags/price_filters.py:9 | the float conversion is exact below 2^53 and maps only 0 to 0; otherwise it is a multiple of the spacing of doubles, within half a spacing of the integer, and on a tie the even multiple |
| Price.ToDouble | apps/catalog/templatetags/price_filters.py:9 | `float()` of an integer is exact below 2^53 in magnitude; the result is negative iff the input is, and zero iff the input is |
| Price.ArsAsWritten | apps/catalog/templatetags/price_filters.py:9 | the filter as written agrees with exact formatting below 2^53 in magnitude |
| Price.AsWrittenLosesDigits | apps/catalog/templatetags/price_filters.py:9 | as written, 2^53 + 1 is displayed as 2^53 |
| LinkForm.Clean | apps/catalog/forms.py:9-25 | link_type never changes; a non-external link gets url and button_text set to "" and no errors; an external link gets an error on each blank field (both may occur), and its non-blank fields are unchanged |
| LinkForm.AcceptedIff | apps/catalog/forms.py:16-25 | no errors iff the link is not external or has both fields; an accepted external link passes through unchanged |
| LinkForm.CleanIdempotentOnAccepted | apps/catalog/forms.py:9-25 | cleaning accepted data again changes nothing |
| Login.PortSuffix | apps/accounts/views.py:20-23 | empty iff the host has no ':'; otherwise ':' followed by the colon-free tail of the host |
| Login.SuccessUrl | apps/accounts/views.py:12-32 | an owner goes to scheme://slug.root+port followed by `next` if it starts with '/', else "/"; a user without a store goes to a non-empty `next` verbatim, else to the catalog |
| Login.OwnerStaysOnOwnStore | apps/accounts/views.py:24-27 | whatever `next` is, an owner's URL is their store base followed by a path starting with '/' |
| OwnerAccess.OwnerRequired | apps/accounts/decorators.py:8-16 | the view runs iff there is a store, the user is authenticated and owns it; redirect to login iff there is a store and the user is anonymous; permission denied otherwise |
| OwnerAccess.NoStoreDeniesEveryone | apps/accounts/decorators.py:9-11 | without a store in context the outcome is permission denied for every user |
| Slugs.CategorySlug | apps/catalog/models.py:33-36 | a blank slug becomes slugify(name); a non-blank slug is never changed |
| Slugs.Candidate | apps/catalog/models.py:90 | the k-th attempted name is longer than the base for k ≥ 1 |
| Slugs.CandidateInjective | apps/catalog/models.py:87-91 | different attempts give different names, so the loop never retries a name |
| Slugs.UniqueSlug | apps/catalog/models.py:86-92 | the result is not an existing slug; it is the base when the base is free, and otherwise base-k for the smallest k whose name is free; the loop terminates |
| Slugs.ProductSlug | apps/catalog/models.py:84-93 | a non-blank slug is kept; a blank one becomes an unused name: slugify(name) when that is free, otherwise slugify(name)-k for the smallest k whose name is free |
| Gallery.Init | static/js/gallery_maximizer.js:16 | an empty media list disables the viewer; otherwise it starts closed on item 0 |
| Gallery.Show | static/js/gallery_maximizer.js:116-122 | opens on clamp(i, 0, n-1) |
| Gallery.Hide | static/js/gallery_maximizer.js:124-128 | closes the overlay and keeps the current item |
| Gallery.Next | static/js/gallery_maximizer.js:137-141 | moves one item forward and wraps from the last item to the first, staying in [0, n) |
| Gallery.Prev | static/js/gallery_maximizer.js:132-136 | moves one item back and wraps from the first item to the last, staying in [0, n) |
| Gallery.PrevUndoesNext | static/js/gallery_maximizer.js:132-141 | prev after next and next after prev restore the viewer |
| Gallery.NextTimesClimbs | static/js/gallery_maximizer.js:139 | k presses of next before the end move k items forward |
| Gallery.FullCycle | static/js/gallery_maximizer.js:137-141 | n presses of next return to the starting item |
| Gallery.CounterText | static/js/gallery_maximizer.js:99 | the counter text is at least "1 / 1" long and starts with a non-zero digit |
| Gallery.CounterReadsBack | static/js/gallery_maximizer.js:99 | the counter is position i+1, which lies in [1, n], then " / ", then n |
| Gallery.ActiveDots | static/js/gallery_maximizer.js:100-102 | there are n dots and exactly the dot at the current index is active |
| Gallery.Step | static/js/gallery_maximizer.js:105-174 | every handler keeps the index inside [0, n) |
| Gallery.StepGuards | static/js/gallery_maximizer.js:145-173 | keys do nothing while closed; a slide click opens the viewer on that slide only when 0 ≤ idx < n |
| FaqList.IndexOf | static/js/faq_list.js:65-66 | -1 iff the row is absent; otherwise its first position |
| FaqList.Move | static/js/faq_list.js:68-72 | the dragged row ends at the target's old position, right after the target when dragged down and right before it when dragged up; the other rows keep their relative order |
| FaqList.MoveIsPermutation | static/js/faq_list.js:68-72 | the reordered list is a permutation of the original |
| FaqList.Drop | static/js/faq_list.js:59-72 | a drop is a no-op without a dragged row or target, when they are the same row, or when either is not in the list |
| FaqList.DropPlacement | static/js/faq_list.js:63-72 | a real drop puts the dragged row next to the target on the correct side, keeps the others' order and permutes the list |
| FaqList.OrderedIds | static/js/faq_list.js:8-12 | every returned id is the parsed id of some row, and there are no more ids than rows |
| FaqList.OrderedIdsConcat | static/js/faq_list.js:8-12 | ids are listed in document order |
| FaqList.OrderedIdsKeepsParsed | static/js/faq_list.js:8-12 | every numeric id appears in the result |
| FaqList.ReorderRequest | static/js/faq_list.js:14-15 | a request is made iff there is a reorder URL and the id list is non-empty, and it carries exactly those ids |
| FaqList.OnDrop | static/js/faq_list.js:59-74 | a no-op drop makes no request; a real drop with a reorder URL and at least one id posts exactly the ids of the new order; any posted id list is that of the new order, is never empty, and is only posted when there is a reorder URL |
| QtyStepper.AttrOr | static/js/product_qty_stepper.js:10-11 | a missing, unparsable or zero attribute gives the default (1 for min, 999 for max) |
| QtyStepper.ReadBounds | static/js/product_qty_stepper.js:10-11 | neither bound is ever zero; an attribute that parses to a non-zero number is the bound, and a bound is the default exactly when its attribute is missing, zero or equal to the default |
| QtyStepper.DefaultBounds | static/js/product_qty_stepper.js:10-11 | whenever each attribute is missing, unparsable or zero, the bounds are 1 and 999 |
| QtyStepper.UpdateValue | static/js/product_qty_stepper.js:13-16 | the stored value lies in [min, max] when min ≤ max and equals v inside it; when min > max it is min |
| QtyStepper.Plus | static/js/product_qty_stepper.js:18-20 | the result stays in [min, max] when min ≤ max; from min - 1 up to below max it is one more; at or above max it is max; below min - 1, or when min > max, it is min |
| QtyStepper.Minus | static/js/product_qty_stepper.js:22-24 | the result stays in [min, max] when min ≤ max; from above min up to max + 1 it is one less; at or below min it is min (also when min > max); above max + 1 it is max |
| QtyStepper.StepsAtAndInsideBounds | static/js/product_qty_stepper.js:18-24 | plus at max and minus at min change nothing; inside the bounds they step by one and undo each other |
| QtyStepper.UpdateValueIdempotentMonotone | static/js/product_qty_stepper.js:13-16 | clamping twice is clamping once, and larger inputs never give smaller values |

## Findings

| source | as written | input that shows it | evidently intended | confidence | as-written member | corrected member |
|---|---|---|---|---|---|---|
| apps/catalog/templatetags/price_filters.py:9 | `f"{value:,.2f}"` on an `int` formats `float(value)`, which rounds magnitudes above 2^53 to the nearest double | 9007199254740993 is shown as "9.007.199.254.740.992,00". Product prices allow 16 integer digits (`max_digits=18, decimal_places=2`) | the exact integer grouped in threes: `Price.Ars`, which the rest of the model uses and whose round trip `Price.ArsRoundTrip` proves | medium, not executed | Price.AsWrittenLosesDigits | Price.Ars |

## Left out

- Django session persistence and the `session.modified` flag are framework
  plumbing. The model returns the new session value instead.
- The insertion order of a store cart's dict is not modelled: a store cart is
  a map, so the order the cart view lists its lines in (a re-added product
  goes last, an updated line keeps its place) is not represented.
- `int()` coercion errors on malformed session data are not modelled. Session
  keys are taken to be canonical integer strings. A key such as "007" would
  collide with "7" under `int()`; that case is not modelled.
- The `ars` exception fallback (price_filters.py:10-11), which returns the
  input unchanged, is not modelled. So are non-numeric inputs and the
  `OverflowError` of `float()` for magnitudes of about 2^1024 and above.
  Inputs are integers or two-decimal amounts given in cents.
- Cart.Add: the Python default `quantity=1` is not a default parameter here; every caller passes the quantity.
- Tenant.HostName: models `str.lower()` for ASCII letters only.
  Lower-casing of other Unicode characters is not modelled.
- `request.get_host()`, its ALLOWED_HOSTS validation, `Store.objects.get`,
  `reverse("catalog:catalog")`, `slugify` and the `exists()` query are not
  modelled. The model takes them as parameters: a host string, a slug→store
  map of active stores, a catalog URL, a function value and a set of
  existing slugs.
- Slugs.UniqueSlug: the slug field's length limit (180) and the race between
  the existence check and the insert are not modelled.
- The DOM, events, `fetch`, styling and ARIA attributes of the three scripts
  are not modelled. The gallery's media rendering (image or video) is left
  out. FAQ rows are assumed to share one parent, so `insertBefore` acts as a
  move within one list.
- NaN in the scripts is not modelled: `parseInt` of a non-number in the
  stepper's input value, and `Number.isNaN` beyond dropping the id. An
  unparsable id or attribute is `None`.
- The reorder request's failure handling (alert and console log) is not
  modelled. It is UI only.
- The error handling of the form (`add_error` messages and text) is reduced
  to the set of fields that got an error.

=== FILE: cart.dfy ===
/** The session-backed shopping cart: `session['cart']` is a nested map
    store id -> product id -> quantity. The string keys of the session are an
    injective encoding of integer ids, so the model keys by `int` directly.
    Every operation takes the session cart as a value and returns the new one. */
module Cart {

  import opened MapSum

  const MaxQuantity := 99
  const MaxItems := 50

  /** One store's raw cart. Malformed session data may hold non-positive
      quantities, which is why reads filter them out. */
  type StoreCart = map<int, int>

  /** The whole `session['cart']` value; an absent key is the empty map. */
  type Session = map<int, StoreCart>

  function Min(a: int, b: int): int {
    if a <= b then a else b
  }

  /** The raw cart of `store`, or the empty one (`cart.get(store_key) or {}`). */
  function StoreOf(s: Session, store: int): StoreCart {
    if store in s then s[store] else map[]
  }

  /** `store_cart.get(product_key) or 0`. */
  function Stored(s: Session, store: int, product: int): int {
    var sc := StoreOf(s, store);
    if product in sc then sc[product] else 0
  }

  /** Every store other than `store` has exactly the same cart in `s` and `r`. */
  ghost predicate OthersUnchanged(s: Session, r: Session, store: int) {
    forall t :: t != store ==> (t in s <==> t in r) && (t in s ==> r[t] == s[t])
  }

  /** `_normalize_cart`: keeps exactly the entries whose quantity is positive. */
  function Normalize(raw: StoreCart): (r: map<int, int>)
    ensures forall p :: p in r ==> p in raw && r[p] == raw[p] && r[p] > 0
    ensures forall p :: p in raw && raw[p] > 0 ==> p in r
  {
    map p | p in raw && raw[p] > 0 :: raw[p]
  }

  /** `get_cart_for_store`: the positive lines of the store's cart; an absent
      store (or an absent cart) reads as empty. */
  function GetCart(s: Session, store: int): (r: map<int, int>)
    ensures store !in s ==> r == map[]
    ensures forall p :: p in r <==> store in s && p in s[store] && s[store][p] > 0
    ensures forall p :: p in r ==> r[p] == s[store][p]
  {
    Normalize(StoreOf(s, store))
  }

  /** Whether an add of `product` passes the distinct-line guard. */
  predicate HasRoomFor(s: Session, store: int, product: int) {
    product in StoreOf(s, store) || |StoreOf(s, store)| < MaxItems
  }

  /** `add_to_cart`. */
  function Add(s: Session, store: int, product: int, quantity: int): (r: Session)
    ensures quantity <= 0 ==> r == s
    ensures quantity > 0 && !HasRoomFor(s, store, product) ==> r == s
    ensures quantity > 0 && HasRoomFor(s, store, product) ==>
      && store in r
      && product in r[store]
      && r[store][product] == Min(Stored(s, store, product) + Min(quantity, MaxQuantity), MaxQuantity)
      && r[store] - {product} == StoreOf(s, store) - {product}
    ensures OthersUnchanged(s, r, store)
  {
    if quantity <= 0 then s
    else
      var q := Min(quantity, MaxQuantity);
      var sc := StoreOf(s, store);
      if product !in sc && |sc| >= MaxItems then s
      else
        var current := if product in sc then sc[product] else 0;
        s[store := sc[product := Min(current + q, MaxQuantity)]]
  }

  /** `remove_from_cart`. */
  function Remove(s: Session, store: int, product: int): (r: Session)
    ensures product !in StoreOf(s, store) ==> r == s
    ensures store in s ==> store in r && r[store] == s[store] - {product}
    ensures store !in s ==> store !in r
    ensures OthersUnchanged(s, r, store)
  {
    if store !in s then s
    else if product in s[store] then s[store := s[store] - {product}]
    else s
  }

  /** `update_cart`: a non-positive quantity removes the line; otherwise the
      clamped quantity replaces (does not add to) the stored one. */
  function Update(s: Session, store: int, product: int, quantity: int): (r: Session)
    ensures quantity <= 0 ==> r == Remove(s, store, product)
    ensures quantity > 0 ==>
      && store in r
      && product in r[store]
      && r[store][product] == Min(quantity, MaxQuantity)
      && r[store] - {product} == StoreOf(s, store) - {product}
    ensures OthersUnchanged(s, r, store)
  {
    if quantity <= 0 then Remove(s, store, product)
    else s[store := StoreOf(s, store)[product := Min(quantity, MaxQuantity)]]
  }

  /** `set_cart_for_store`: overwrites the store's cart with the positive
      lines of `cart`. */
  function SetCart(s: Session, store: int, cart: map<int, int>): (r: Session)
    ensures store in r
    ensures forall p :: p in r[store] ==> p in cart && r[store][p] == cart[p]
    ensures forall p :: p in cart ==> (p in r[store] <==> cart[p] > 0)
    ensures OthersUnchanged(s, r, store)
  {
    s[store := Normalize(cart)]
  }

  /** `cart_count_for_store`: the total number of units in the store's cart. */
  method CartCount(s: Session, store: int) returns (total: int)
    ensures total == SumValues(GetCart(s, store))
    ensures total >= |GetCart(s, store)|
    ensures total == 0 <==> GetCart(s, store) == map[]
  {
    var cart := GetCart(s, store);
    var rest := cart;
    total := 0;
    while rest != map[]
      invariant forall p :: p in rest ==> p in cart && rest[p] == cart[p]
      invariant total + SumValues(rest) == SumValues(cart)
      invariant total >= |cart| - |rest|
      invariant rest != cart ==> total > 0
      decreases |rest|
    {
      NonEmptyHasKey(rest);
      var p :| p in rest;
      SumValuesRemove(rest, p);
      total := total + rest[p];
      rest := rest - {p};
    }
  }

  /** The cart invariant the operations keep: every stored quantity is in
      [1, MaxQuantity] and no store holds more than MaxItems lines. */
  predicate QuantitiesInRange(s: Session) {
    forall t, p :: t in s && p in s[t] ==> 1 <= s[t][p] <= MaxQuantity
  }

  predicate WellFormed(s: Session) {
    && QuantitiesInRange(s)
    && forall t :: t in s ==> |s[t]| <= MaxItems
  }

  /** On a well-formed session reading a store's cart filters nothing out. */
  lemma GetCartOfWellFormed(s: Session, store: int)
    requires QuantitiesInRange(s)
    ensures GetCart(s, store) == StoreOf(s, store)
  {
    var sc := StoreOf(s, store);
    forall p | p in sc
      ensures p in GetCart(s, store)
    {
      assert sc[p] >= 1;
    }
    assert GetCart(s, store).Keys == sc.Keys;
  }

  /** Adding `a` then `b` units of one product accumulates them, clamped
      at MaxQuantity (adding 5 then 3 gives 8). */
  lemma AddAccumulates(s: Session, store: int, product: int, a: int, b: int)
    requires QuantitiesInRange(s)
    requires a > 0 && b > 0 && HasRoomFor(s, store, product)
    ensures Stored(Add(Add(s, store, product, a), store, product, b), store, product)
            == Min(Stored(s, store, product) + a + b, MaxQuantity)
  {
  }

  /** `add_to_cart` keeps the cart invariant: quantities stay in
      [1, MaxQuantity] and no store is pushed past MaxItems lines. */
  lemma AddPreservesWellFormed(s: Session, store: int, product: int, quantity: int)
    requires WellFormed(s)
    ensures WellFormed(Add(s, store, product, quantity))
  {
  }

  /** The distinct-line guard alone keeps a store within MaxItems lines,
      whatever the quantities and whatever the other stores hold. */
  lemma AddKeepsLineCap(s: Session, store: int, product: int, quantity: int)
    requires |StoreOf(s, store)| <= MaxItems
    ensures |StoreOf(Add(s, store, product, quantity), store)| <= MaxItems
  {
  }

  lemma RemovePreservesWellFormed(s: Session, store: int, product: int)
    requires WellFormed(s)
    ensures WellFormed(Remove(s, store, product))
  {
  }

  /** `update_cart` keeps quantities in range ... */
  lemma UpdatePreservesQuantities(s: Session, store: int, product: int, quantity: int)
    requires QuantitiesInRange(s)
    ensures QuantitiesInRange(Update(s, store, product, quantity))
  {
  }

  /** ... but it does not apply the MaxItems guard: setting a new product
      always adds a line, even to a store that is already full. */
  lemma UpdateIgnoresLineCap(s: Session, store: int, product: int, quantity: int)
    requires quantity > 0 && product !in StoreOf(s, store)
    ensures |StoreOf(Update(s, store, product, quantity), store)| == |StoreOf(s, store)| + 1
  {
  }

  /** For a product not yet in a store cart with room, setting a quantity
      and adding it are the same operation. */
  lemma UpdateOfNewLineIsAdd(s: Session, store: int, product: int, quantity: int)
    requires quantity > 0 && product !in StoreOf(s, store) && |StoreOf(s, store)| < MaxItems
    ensures Update(s, store, product, quantity) == Add(s, store, product, quantity)
  {
  }

  /** Removing or setting twice is the same as doing it once. */
  lemma RemoveAndUpdateIdempotent(s: Session, store: int, product: int, quantity: int)
    ensures Remove(Remove(s, store, product), store, product) == Remove(s, store, product)
    ensures Update(Update(s, store, product, quantity), store, product, quantity)
            == Update(s, store, product, quantity)
  {
    var r := Update(s, store, product, quantity);
    if quantity > 0 {
      assert StoreOf(r, store)[product := Min(quantity, MaxQuantity)] == StoreOf(r, store);
    }
  }

  /** Reading a store's cart right after overwriting it gives back the
      positive lines that were written. */
  lemma SetThenGet(s: Session, store: int, cart: map<int, int>)
    ensures GetCart(SetCart(s, store, cart), store) == Normalize(cart)
    ensures (forall p :: p in cart ==> cart[p] > 0) ==> GetCart(SetCart(s, store, cart), store) == cart
  {
    var r := GetCart(SetCart(s, store, cart), store);
    assert r.Keys == Normalize(cart).Keys;
    if forall p :: p in cart ==> cart[p] > 0 {
      assert Normalize(cart).Keys == cart.Keys;
    }
  }

  /** A mutation of one store's cart is invisible from every other store. */
  lemma MutationsIsolated(s: Session, store: int, other: int, product: int, quantity: int,
                          cart: map<int, int>)
    requires other != store
    ensures GetCart(Add(s, store, product, quantity), other) == GetCart(s, other)
    ensures GetCart(Remove(s, store, product), other) == GetCart(s, other)
    ensures GetCart(Update(s, store, product, quantity), other) == GetCart(s, other)
    ensures GetCart(SetCart(s, store, cart), other) == GetCart(s, other)
  {
  }
}

=== FILE: decimal.dfy ===
/** Decimal digit strings: Python's `str(n)` / JavaScript's `String(n)` for
    integers, together with the inverse used to state round trips. */
module Decimal {

  predicate IsDigit(c: char) {
    '0' <= c <= '9'
  }

  predicate AllDigits(s: string) {
    forall i :: 0 <= i < |s| ==> IsDigit(s[i])
  }

  function DigitChar(d: nat): (c: char)
    requires d < 10
    ensures IsDigit(c)
  {
    ('0' as int + d) as char
  }

  function DigitValue(c: char): (d: nat)
    requires IsDigit(c)
    ensures d < 10
    ensures DigitChar(d) == c
  {
    c as int - '0' as int
  }

  /** The decimal representation of `n`, without leading zeros ("0" for zero). */
  function NatToDecimal(n: nat): (s: string)
    ensures |s| >= 1 && AllDigits(s)
    ensures s[0] == '0' ==> n == 0
    decreases n
  {
    if n < 10 then [DigitChar(n)] else NatToDecimal(n / 10) + [DigitChar(n % 10)]
  }

  /** The value of a digit string read in base ten. */
  function DecimalValue(s: string): nat
    requires AllDigits(s)
  {
    if s == [] then 0 else 10 * DecimalValue(s[..|s| - 1]) + DigitValue(s[|s| - 1])
  }

  /** Reading back the representation gives the number it was made from. */
  lemma {:induction false} DecimalRoundTrip(n: nat)
    ensures DecimalValue(NatToDecimal(n)) == n
    decreases n
  {
    if n >= 10 {
      var s := NatToDecimal(n);
      assert s[..|s| - 1] == NatToDecimal(n / 10);
      DecimalRoundTrip(n / 10);
    }
  }

  /** Distinct numbers have distinct representations. */
  lemma NatToDecimalInjective(a: nat, b: nat)
    ensures NatToDecimal(a) == NatToDecimal(b) ==> a == b
  {
    DecimalRoundTrip(a);
    DecimalRoundTrip(b);
  }

  /** A number has at most three digits exactly when it is below one thousand. */
  lemma {:induction false} ShortIffBelowThousand(n: nat)
    ensures |NatToDecimal(n)| <= 3 <==> n < 1000
  {
    if n >= 10 {
      var a := n / 10;
      assert |NatToDecimal(n)| == |NatToDecimal(a)| + 1;
      if a >= 10 {
        var b := a / 10;
        assert |NatToDecimal(a)| == |NatToDecimal(b)| + 1;
        if b >= 10 {
          assert |NatToDecimal(b)| == |NatToDecimal(b / 10)| + 1;
        }
      }
    }
  }
}

=== FILE: faq_list.dfy ===
/** The FAQ list's drag-and-drop reordering: dropping a row on another one
    moves it just after the target when dragging down and just before it
    when dragging up; the new order of FAQ ids is then posted to the server. */
module FaqList {
  import opened Wrappers

  /** A `.help-faq-item` row: `node` stands for the DOM element's identity,
      `faqId` for `parseInt(data-faq-id)` (None when it is NaN). */
  datatype Item = Item(node: nat, faqId: Option<int>)

  /** `Array.prototype.indexOf`: the first position of `x`, or -1. */
  function IndexOf<T(==)>(s: seq<T>, x: T): (i: int)
    ensures -1 <= i < |s|
    ensures i == -1 <==> x !in s
    ensures i >= 0 ==> s[i] == x && x !in s[..i]
  {
    if s == [] then -1
    else if s[0] == x then 0
    else
      var j := IndexOf(s[1..], x);
      assert s[1..][..(if j >= 0 then j else 0)] == s[1..(if j >= 0 then j + 1 else 1)];
      if j == -1 then -1 else j + 1
  }

  function RemoveAt<T>(s: seq<T>, i: nat): (r: seq<T>)
    requires i < |s|
    ensures |r| == |s| - 1
  {
    s[..i] + s[i + 1..]
  }

  /** `insertBefore(dragged, target.nextSibling)` when `from < to`,
      otherwise `insertBefore(dragged, target)`. In both cases the dragged
      row ends at the target's old position. */
  function Move<T>(items: seq<T>, from: nat, to: nat): (r: seq<T>)
    requires from < |items| && to < |items| && from != to
    ensures |r| == |items|
    ensures r[to] == items[from]
    ensures from < to ==> r[to - 1] == items[to]
    ensures from > to ==> r[to + 1] == items[to]
    ensures RemoveAt(r, to) == RemoveAt(items, from)
  {
    if from < to then
      var r := items[..from] + items[from + 1..to + 1] + [items[from]] + items[to + 1..];
      assert r[..to] == items[..from] + items[from + 1..to + 1];
      assert r[to + 1..] == items[to + 1..];
      assert items[from + 1..] == items[from + 1..to + 1] + items[to + 1..];
      r
    else
      var r := items[..to] + [items[from]] + items[to..from] + items[from + 1..];
      assert r[..to] == items[..to];
      assert r[to + 1..] == items[to..from] + items[from + 1..];
      assert items[..from] == items[..to] + items[to..from];
      r
  }

  /** Moving a row only reorders: the rows are the same, with the same
      multiplicities. */
  lemma MoveIsPermutation<T>(items: seq<T>, from: nat, to: nat)
    requires from < |items| && to < |items| && from != to
    ensures multiset(Move(items, from, to)) == multiset(items)
  {
    if from < to {
      var a, x, b, c := items[..from], [items[from]], items[from + 1..to + 1], items[to + 1..];
      assert items == a + x + b + c;
      assert Move(items, from, to) == a + b + x + c;
    } else {
      var a, b, x, c := items[..to], items[to..from], [items[from]], items[from + 1..];
      assert items == a + b + x + c;
      assert Move(items, from, to) == a + x + b + c;
    }
  }

  /** The drop handler's effect on the list. It does nothing without a
      dragged row or a target, when they are the same row, or when either
      is not in the list. */
  function Drop<T(==)>(items: seq<T>, dragged: Option<T>, target: Option<T>): (r: seq<T>)
    ensures |r| == |items|
    ensures dragged.None? || target.None? || dragged == target ==> r == items
    ensures dragged.Some? && dragged.value !in items ==> r == items
    ensures target.Some? && target.value !in items ==> r == items
  {
    if dragged.None? || target.None? || dragged == target then items
    else
      var from := IndexOf(items, dragged.value);
      var to := IndexOf(items, target.value);
      if from == -1 || to == -1 then items
      else Move(items, from, to)
  }

  /** A real drop puts the dragged row right after the target when it was
      above it, right before it when it was below, and keeps the relative
      order of every other row. */
  lemma DropPlacement<T>(items: seq<T>, dragged: T, target: T)
    requires dragged in items && target in items && dragged != target
    ensures var r := Drop(items, Some(dragged), Some(target));
            var from := IndexOf(items, dragged);
            var to := IndexOf(items, target);
            && r[to] == dragged
            && (from < to ==> r[to - 1] == target)
            && (from > to ==> r[to + 1] == target)
            && RemoveAt(r, to) == RemoveAt(items, from)
            && multiset(r) == multiset(items)
  {
    MoveIsPermutation(items, IndexOf(items, dragged), IndexOf(items, target));
  }

  /** `getOrderedIds`: the parsed ids in document order, NaN ones dropped. */
  function OrderedIds(items: seq<Item>): (r: seq<int>)
    ensures |r| <= |items|
    ensures forall x :: x in r ==> exists i :: 0 <= i < |items| && items[i].faqId == Some(x)
  {
    if items == [] then []
    else
      var rest := OrderedIds(items[1..]);
      assert forall x :: x in rest ==> exists i :: 0 <= i < |items| && items[i].faqId == Some(x) by {
        forall x | x in rest
          ensures exists i :: 0 <= i < |items| && items[i].faqId == Some(x)
        {
          var j :| 0 <= j < |items[1..]| && items[1..][j].faqId == Some(x);
          assert items[j + 1].faqId == Some(x);
        }
      }
      match items[0].faqId
      case Some(id) => [id] + rest
      case None => rest
  }

  /** Document order is kept: the ids of a list split in two are the ids of
      the first part followed by those of the second. */
  lemma {:induction false} OrderedIdsConcat(a: seq<Item>, b: seq<Item>)
    ensures OrderedIds(a + b) == OrderedIds(a) + OrderedIds(b)
  {
    if a != [] {
      assert (a + b)[0] == a[0];
      assert (a + b)[1..] == a[1..] + b;
      OrderedIdsConcat(a[1..], b);
    } else {
      assert a + b == b;
    }
  }

  /** Every parsed id is kept. */
  lemma {:induction false} OrderedIdsKeepsParsed(items: seq<Item>, i: nat)
    requires i < |items| && items[i].faqId.Some?
    ensures items[i].faqId.value in OrderedIds(items)
  {
    if i > 0 {
      OrderedIdsKeepsParsed(items[1..], i - 1);
    }
  }

  /** `callReorder`: the ids to post, or None when no request is made (no
      reorder URL or an empty id list). */
  function ReorderRequest(reorderUrl: string, ids: seq<int>): (r: Option<seq<int>>)
    ensures r.Some? <==> reorderUrl != "" && |ids| > 0
    ensures r.Some? ==> r.value == ids
  {
    if reorderUrl == "" || |ids| == 0 then None else Some(ids)
  }

  /** The whole drop handler: the new list and the request it posts. */
  function OnDrop(items: seq<Item>, dragged: Option<Item>, target: Option<Item>, reorderUrl: string)
    : (r: (seq<Item>, Option<seq<int>>))
    ensures r.0 == Drop(items, dragged, target)
    ensures r.1.Some? ==> r.1.value == OrderedIds(r.0) && |r.1.value| > 0 && reorderUrl != ""
    ensures dragged.None? || target.None? || dragged == target ==> r == (items, None)
    ensures dragged.Some? && target.Some? && (dragged.value !in items || target.value !in items) ==>
      r == (items, None)
    ensures dragged.Some? && target.Some? && dragged != target
            && dragged.value in items && target.value in items
            && reorderUrl != "" && OrderedIds(r.0) != [] ==>
      r.1 == Some(OrderedIds(r.0))
  {
    if dragged.None? || target.None? || dragged == target then (items, None)
    else if dragged.value !in items || target.value !in items then (items, None)
    else
      var moved := Drop(items, dragged, target);
      (moved, ReorderRequest(reorderUrl, OrderedIds(moved)))
  }
}

=== FILE: gallery.dfy ===
/** The product gallery lightbox: an overlay showing one of `count` media
    items, with previous/next arrows that wrap around, one dot per item,
    and a "current / total" counter. Only the index arithmetic is modelled. */
module Gallery {
  import opened Wrappers
  import opened Decimal

  /** `index` is `currentIndex`; `open` is whether the overlay is shown. */
  datatype Viewer = Viewer(count: nat, index: int, open: bool)

  /** The viewer invariant: there is at least one item and the index
      designates one of them. */
  predicate Valid(v: Viewer) {
    v.count >= 1 && 0 <= v.index < v.count
  }

  /** The script does nothing for an empty media list; otherwise it starts
      closed at the first item. */
  function Init(count: nat): (r: Option<Viewer>)
    ensures r.None? <==> count == 0
    ensures r.Some? ==> Valid(r.value) && r.value.index == 0 && !r.value.open
  {
    if count == 0 then None else Some(Viewer(count, 0, false))
  }

  /** `show(index)`: opens the overlay on the nearest existing item. */
  function Show(v: Viewer, i: int): (r: Viewer)
    requires Valid(v)
    ensures Valid(r) && r.open && r.count == v.count
    ensures 0 <= i < v.count ==> r.index == i
    ensures i < 0 ==> r.index == 0
    ensures i >= v.count ==> r.index == v.count - 1
  {
    var upper := if i < v.count - 1 then i else v.count - 1;
    v.(index := if upper > 0 then upper else 0, open := true)
  }

  function Hide(v: Viewer): (r: Viewer)
    ensures r.index == v.index && r.count == v.count && !r.open
  {
    v.(open := false)
  }

  /** The next arrow: `(currentIndex + 1) % count`. */
  function Next(v: Viewer): (r: Viewer)
    requires Valid(v)
    ensures Valid(r) && r.count == v.count && r.open == v.open
    ensures v.index < v.count - 1 ==> r.index == v.index + 1
    ensures v.index == v.count - 1 ==> r.index == 0
  {
    v.(index := (v.index + 1) % v.count)
  }

  /** The previous arrow: `(currentIndex - 1 + count) % count`. */
  function Prev(v: Viewer): (r: Viewer)
    requires Valid(v)
    ensures Valid(r) && r.count == v.count && r.open == v.open
    ensures v.index > 0 ==> r.index == v.index - 1
    ensures v.index == 0 ==> r.index == v.count - 1
  {
    v.(index := (v.index - 1 + v.count) % v.count)
  }

  lemma PrevUndoesNext(v: Viewer)
    requires Valid(v)
    ensures Prev(Next(v)) == v
    ensures Next(Prev(v)) == v
  {
  }

  function NextTimes(v: Viewer, k: nat): (r: Viewer)
    requires Valid(v)
    ensures Valid(r) && r.count == v.count && r.open == v.open
  {
    if k == 0 then v else Next(NextTimes(v, k - 1))
  }

  lemma {:induction false} NextTimesAdd(v: Viewer, a: nat, b: nat)
    requires Valid(v)
    ensures NextTimes(v, a + b) == NextTimes(NextTimes(v, a), b)
  {
    if b > 0 {
      NextTimesAdd(v, a, b - 1);
    }
  }

  lemma NextTimesSplit(v: Viewer, a: nat, b: nat, n: nat)
    requires Valid(v) && n == a + b
    ensures NextTimes(v, n) == NextTimes(NextTimes(v, a), b)
  {
    NextTimesAdd(v, a, b);
  }

  /** Before wrapping round, pressing next `k` times moves `k` items on. */
  lemma {:induction false} NextTimesClimbs(v: Viewer, k: nat)
    requires Valid(v) && v.index + k < v.count
    ensures NextTimes(v, k) == v.(index := v.index + k)
  {
    if k > 0 {
      NextTimesClimbs(v, k - 1);
    }
  }

  /** From the last item one press of next wraps round to the first. */
  lemma NextTimesWraps(v: Viewer)
    requires Valid(v) && v.index == v.count - 1
    ensures NextTimes(v, 1) == v.(index := 0)
  {
  }

  /** Going round the whole gallery returns to the starting item. */
  lemma FullCycle(v: Viewer)
    requires Valid(v)
    ensures NextTimes(v, v.count) == v
  {
    var toEnd := v.count - 1 - v.index;
    var last := v.(index := v.count - 1);
    var first := v.(index := 0);
    NextTimesClimbs(v, toEnd);
    NextTimesAdd(v, toEnd, 1);
    NextTimesWraps(last);
    assert NextTimes(v, toEnd + 1) == first;
    NextTimesClimbs(first, v.index);
    assert first.(index := v.index) == v;
    NextTimesSplit(v, toEnd + 1, v.index, v.count);
  }

  /** The counter text `(currentIndex + 1) + " / " + count`. */
  function CounterText(v: Viewer): (r: string)
    requires Valid(v)
    ensures |r| >= 5 && r[0] != '0'
  {
    NatToDecimal(v.index + 1) + " / " + NatToDecimal(v.count)
  }

  /** The counter shows a position between 1 and the count, then " / ",
      then the count. */
  lemma CounterReadsBack(v: Viewer)
    requires Valid(v)
    ensures var pos := NatToDecimal(v.index + 1);
            var r := CounterText(v);
            && r[..|pos|] == pos
            && r[|pos|..|pos| + 3] == " / "
            && DecimalValue(pos) == v.index + 1
            && 1 <= DecimalValue(pos) <= v.count
            && r[|pos| + 3..] == NatToDecimal(v.count)
  {
    DecimalRoundTrip(v.index + 1);
  }

  /** Which dots carry the "active" class: exactly the current one. */
  function ActiveDots(v: Viewer): (r: seq<bool>)
    requires Valid(v)
    ensures |r| == v.count
    ensures forall i :: 0 <= i < |r| ==> (r[i] <==> i == v.index)
  {
    seq(v.count, i => i == v.index)
  }

  datatype Event =
    | PrevClick
    | NextClick
    | DotClick(dot: int)
    | CloseClick
    | Key(key: string)
    | SlideClick(slideIndex: Option<int>, onVideo: bool)

  /** The event handlers of the overlay and of the slides. A dot carries its
      own position as `data-index`; a slide's `data-index` may be missing or
      unparsable (None). */
  function Step(v: Viewer, e: Event): (r: Viewer)
    requires Valid(v)
    ensures Valid(r) && r.count == v.count
  {
    match e
    case PrevClick => Prev(v)
    case NextClick => Next(v)
    // The handler only rejects NaN; the guard is there because dots are
    // numbered 0 to count - 1 when they are created, so it never fails.
    case DotClick(d) => if 0 <= d < v.count then v.(index := d) else v
    case CloseClick => Hide(v)
    case Key(k) =>
      if !v.open then v
      else if k == "Escape" then Hide(v)
      else if k == "ArrowLeft" then Prev(v)
      else if k == "ArrowRight" then Next(v)
      else v
    case SlideClick(idx, onVideo) =>
      if onVideo || idx.None? then v
      else if 0 <= idx.value < v.count then Show(v, idx.value)
      else v
  }

  /** Keys do nothing while the overlay is closed, and a slide click opens
      the overlay exactly on a valid slide index. */
  lemma StepGuards(v: Viewer, key: string, idx: int)
    requires Valid(v)
    ensures !v.open ==> Step(v, Key(key)) == v
    ensures Step(v, SlideClick(Some(idx), false)).open <==> v.open || 0 <= idx < v.count
    ensures 0 <= idx < v.count ==> Step(v, SlideClick(Some(idx), false)).index == idx
  {
  }
}

=== FILE: link_form.dfy ===
/** `ProductLinkInlineForm.clean`: an "external" purchase link must carry
    its own URL and button text; for every other link type both are derived
    elsewhere, so the form blanks them. */
module LinkForm {
  import opened Wrappers

  const External := "external"

  /** The fields `clean` looks at in `cleaned_data`; None is an absent key. */
  datatype Cleaned = Cleaned(linkType: Option<string>, url: Option<string>, buttonText: Option<string>)

  datatype Field = UrlField | ButtonTextField

  /** The cleaned data returned, plus the fields that got an error, in the
      order they were added. */
  datatype CleanResult = CleanResult(cleaned: Cleaned, errors: seq<Field>)

  /** Python's `not value` for an optional string. */
  predicate Blank(v: Option<string>) {
    v.None? || v.value == ""
  }

  /** `add_error(field, ...)` also drops the field from `cleaned_data`, so a
      field with an error comes back absent. */
  function Clean(c: Cleaned): (r: CleanResult)
    ensures r.cleaned.linkType == c.linkType
    ensures c.linkType != Some(External) ==>
      r.errors == [] && r.cleaned.url == Some("") && r.cleaned.buttonText == Some("")
    ensures c.linkType == Some(External) ==>
      && (UrlField in r.errors <==> Blank(c.url))
      && (ButtonTextField in r.errors <==> Blank(c.buttonText))
      && |r.errors| <= 2
      && (Blank(c.url) ==> r.cleaned.url.None?)
      && (!Blank(c.url) ==> r.cleaned.url == c.url)
      && (Blank(c.buttonText) ==> r.cleaned.buttonText.None?)
      && (!Blank(c.buttonText) ==> r.cleaned.buttonText == c.buttonText)
  {
    if c.linkType == Some(External) then
      var urlErrors := if Blank(c.url) then [UrlField] else [];
      var textErrors := if Blank(c.buttonText) then [ButtonTextField] else [];
      CleanResult(
        Cleaned(c.linkType,
                if Blank(c.url) then None else c.url,
                if Blank(c.buttonText) then None else c.buttonText),
        urlErrors + textErrors)
    else
      CleanResult(Cleaned(c.linkType, Some(""), Some("")), [])
  }

  /** The form accepts a link exactly when it is not external, or when it
      is external with both a URL and a button text; an accepted external
      link passes through unchanged. */
  lemma AcceptedIff(c: Cleaned)
    ensures Clean(c).errors == [] <==>
      c.linkType != Some(External) || (!Blank(c.url) && !Blank(c.buttonText))
    ensures c.linkType == Some(External) && Clean(c).errors == [] ==> Clean(c).cleaned == c
  {
  }

  /** Cleaning an already-cleaned accepted link changes nothing more. */
  lemma CleanIdempotentOnAccepted(c: Cleaned)
    requires Clean(c).errors == []
    ensures Clean(Clean(c).cleaned) == Clean(c)
  {
  }
}

=== FILE: login.dfy ===
/** `LoginView.get_success_url`: where a user is sent after logging in.
    A store owner goes to their own store's subdomain (keeping the port of
    the current host); anyone else follows `next` or lands on the catalog. */
module Login {
  import opened Wrappers
  import opened Text
  import Settings

  /** The request as the view sees it. `next` is the `next` query
      parameter, "" when absent. `userStoreSlug` is the slug of the
      logged-in user's store, None when the user owns none. */
  datatype LoginRequest = LoginRequest(
    scheme: string,
    host: string,
    next: string,
    userStoreSlug: Option<string>)

  /** `":" + host.split(":")[-1]` when the host has a ':', otherwise "". */
  function PortSuffix(host: string): (r: string)
    ensures ':' !in host <==> r == ""
    ensures ':' in host ==> r[0] == ':' && ':' !in r[1..] && EndsWith(host, r)
  {
    if ':' in host then ":" + AfterLast(host, ':') else ""
  }

  /** `scheme://{slug}.{root}{port}`. */
  function StoreBase(scheme: string, slug: string, root: string, host: string): string {
    scheme + "://" + slug + "." + root + PortSuffix(host)
  }

  /** `get_success_url`; `catalogUrl` stands for `reverse("catalog:catalog")`. */
  function SuccessUrl(req: LoginRequest, rootSetting: Option<string>, catalogUrl: string): (r: string)
    ensures req.userStoreSlug.Some? ==>
      var base := StoreBase(req.scheme, req.userStoreSlug.value, Settings.RootDomain(rootSetting), req.host);
      && StartsWith(r, base)
      && (StartsWith(req.next, "/") ==> r == base + req.next)
      && (!StartsWith(req.next, "/") ==> r == base + "/")
    ensures req.userStoreSlug.None? && req.next != "" ==> r == req.next
    ensures req.userStoreSlug.None? && req.next == "" ==> r == catalogUrl
  {
    match req.userStoreSlug
    case Some(slug) =>
      var base := StoreBase(req.scheme, slug, Settings.RootDomain(rootSetting), req.host);
      if req.next != "" && StartsWith(req.next, "/") then base + req.next else base + "/"
    case None =>
      if req.next != "" then req.next else catalogUrl
  }

  /** An owner is always sent to a path on their own store's host: whatever
      `next` says, the URL is the store base followed by a path that starts
      with '/'. */
  lemma OwnerStaysOnOwnStore(req: LoginRequest, rootSetting: Option<string>, catalogUrl: string)
    requires req.userStoreSlug.Some?
    ensures var base := StoreBase(req.scheme, req.userStoreSlug.value,
                                  Settings.RootDomain(rootSetting), req.host);
            var r := SuccessUrl(req, rootSetting, catalogUrl);
            |r| > |base| && r[..|base|] == base && r[|base|] == '/'
  {
  }
}

=== FILE: mapsum.dfy ===
/** Sums of the values of a finite map, used to state what the cart badge
    counts independently of the order in which a loop visits the keys. */
module MapSum {

  lemma NonEmptyHasKey(m: map<int, int>)
    requires |m| != 0
    ensures exists k :: k in m
  {
    if forall k :: k !in m {
      assert false;
    }
  }

  predicate IsMinKey(m: map<int, int>, k: int) {
    k in m && forall j :: j in m ==> k <= j
  }

  lemma {:induction false} MinKeyExists(m: map<int, int>)
    requires |m| != 0
    ensures exists k :: IsMinKey(m, k)
    decreases |m|
  {
    NonEmptyHasKey(m);
    var x :| x in m;
    var rest := m - {x};
    assert rest.Keys == m.Keys - {x};
    if |rest| == 0 {
      assert m.Keys == {x};
      assert IsMinKey(m, x);
    } else {
      MinKeyExists(rest);
      var y :| IsMinKey(rest, y);
      var least := if x <= y then x else y;
      forall j | j in m
        ensures least <= j
      {
        if j != x {
          assert j in rest;
        }
      }
      assert IsMinKey(m, least);
    }
  }

  /** The smallest key of a non-empty map. */
  ghost function MinKey(m: map<int, int>): (k: int)
    requires |m| != 0
    ensures IsMinKey(m, k)
  {
    MinKeyExists(m);
    var k :| IsMinKey(m, k);
    k
  }

  /** The sum of all values of a map, taken in increasing key order. */
  ghost function SumValues(m: map<int, int>): int
    decreases |m|
  {
    if |m| == 0 then 0
    else
      var k := MinKey(m);
      assert (m - {k}).Keys == m.Keys - {k};
      m[k] + SumValues(m - {k})
  }

  /** The sum does not depend on which key is taken out first. */
  lemma {:induction false} SumValuesRemove(m: map<int, int>, k: int)
    requires k in m
    ensures SumValues(m) == m[k] + SumValues(m - {k})
    decreases |m|
  {
    var j := MinKey(m);
    if j != k {
      var mj := m - {j};
      var mk := m - {k};
      assert mj.Keys == m.Keys - {j};
      assert mk.Keys == m.Keys - {k};
      assert k in mj && j in mk;
      SumValuesRemove(mj, k);
      SumValuesRemove(mk, j);
      assert mj - {k} == mk - {j};
    }
  }
}

=== FILE: owner_access.dfy ===
/** The `owner_required` view decorator: only the owner of the store the
    request was resolved to may run a store-management view. */
module OwnerAccess {
  import opened Wrappers

  /** The requesting user; an authenticated user may own one store (by id). */
  datatype User = Anonymous | Authenticated(ownedStore: Option<int>)

  /** Raise PermissionDenied, redirect to the login page, or call the view. */
  datatype Decision = PermissionDenied | RedirectToLogin | RunView

  /** `requestStore` is `request.store` as set by the tenant middleware. */
  function OwnerRequired(requestStore: Option<int>, user: User): (d: Decision)
    ensures d == RunView <==>
      requestStore.Some? && user.Authenticated? && user.ownedStore == requestStore
    ensures d == RedirectToLogin <==> requestStore.Some? && user.Anonymous?
    ensures d == PermissionDenied <==>
      requestStore.None? || (user.Authenticated? && user.ownedStore != requestStore)
  {
    if requestStore.None? then PermissionDenied
    else if user.Anonymous? then RedirectToLogin
    else if user.ownedStore.None? || user.ownedStore != requestStore then PermissionDenied
    else RunView
  }

  /** Without a store in context nobody gets in, not even to the login page. */
  lemma NoStoreDeniesEveryone(user: User)
    ensures OwnerRequired(None, user) == PermissionDenied
  {
  }
}

=== FILE: price.dfy ===
/** The `ars` template filter: an amount in Argentine peso style, with '.'
    between groups of three digits and ',' before the two decimals,
    "1234567" -> "1.234.567,00". */
module Price {
  import opened Wrappers
  import opened Decimal

  function Abs(v: int): nat {
    if v < 0 then -v else v
  }

  /** `int(value)` on an amount with two decimal places, given in cents:
      Python truncates toward zero. */
  function TruncateCents(cents: int): (r: int)
    ensures cents >= 0 ==> 0 <= r * 100 <= cents < r * 100 + 100
    ensures cents < 0 ==> r * 100 - 100 < cents <= r * 100 <= 0
  {
    if cents >= 0 then cents / 100 else -((-cents) / 100)
  }

  /** Removes every '.'. */
  function StripDots(s: string): (r: string)
    ensures '.' !in r
    ensures |r| <= |s|
  {
    if s == [] then [] else (if s[0] == '.' then [] else [s[0]]) + StripDots(s[1..])
  }

  lemma {:induction false} StripDotsConcat(a: string, b: string)
    ensures StripDots(a + b) == StripDots(a) + StripDots(b)
  {
    if a != [] {
      assert (a + b)[0] == a[0];
      assert (a + b)[1..] == a[1..] + b;
      StripDotsConcat(a[1..], b);
    } else {
      assert a + b == b;
    }
  }

  lemma {:induction false} StripDotsOfDigits(d: string)
    requires AllDigits(d)
    ensures StripDots(d) == d
  {
    if d != [] {
      StripDotsOfDigits(d[1..]);
    }
  }

  /** The `,` grouping of Python's format spec: a '.' before every group of
      three digits counted from the right. */
  function Group(d: string): (g: string)
    requires AllDigits(d)
    ensures |d| >= 1 ==> |g| == |d| + (|d| - 1) / 3
    decreases |d|
  {
    if |d| <= 3 then d else Group(d[..|d| - 3]) + "." + d[|d| - 3..]
  }

  /** Digits in groups of three from the right: the characters at distance
      4, 8, 12, ... from the end are the separators and all others are
      digits, with a digit first; the length rules out a leading group of
      four digits. */
  predicate GroupedShape(g: string) {
    && |g| >= 1
    && |g| % 4 != 0
    && forall i :: 0 <= i < |g| ==>
         if i > 0 && (|g| - i) % 4 == 0 then g[i] == '.' else IsDigit(g[i])
  }

  /** Appending a separator and a group of three digits keeps the shape. */
  lemma ShapeExtend(gh: string, t: string)
    requires GroupedShape(gh) && |t| == 3 && AllDigits(t)
    ensures GroupedShape(gh + "." + t)
  {
    var g := gh + "." + t;
    forall i | 0 <= i < |g|
      ensures if i > 0 && (|g| - i) % 4 == 0 then g[i] == '.' else IsDigit(g[i])
    {
      if i < |gh| {
        assert g[i] == gh[i];
        assert |g| - i == (|gh| - i) + 4;
      } else if i == |gh| {
        assert |g| - i == 4;
      } else {
        assert g[i] == t[i - |gh| - 1];
        assert 1 <= |g| - i <= 3;
      }
    }
  }

  /** Grouping puts the separators in the right places ... */
  lemma {:induction false} GroupShape(d: string)
    requires AllDigits(d) && |d| >= 1
    ensures GroupedShape(Group(d))
    decreases |d|
  {
    if |d| > 3 {
      var h, t := d[..|d| - 3], d[|d| - 3..];
      GroupShape(h);
      ShapeExtend(Group(h), t);
      assert Group(d) == Group(h) + "." + t;
    } else {
      forall i | 0 <= i < |d|
        ensures if i > 0 && (|d| - i) % 4 == 0 then d[i] == '.' else IsDigit(d[i])
      {
        assert 1 <= |d| - i <= 3 || i == 0;
      }
    }
  }

  /** Removing the dots of one more group leaves its digits. */
  lemma StripDotsExtend(gh: string, t: string)
    requires AllDigits(t)
    ensures StripDots(gh + "." + t) == StripDots(gh) + t
  {
    StripDotsConcat(gh + ".", t);
    StripDotsConcat(gh, ".");
    StripDotsOfDigits(t);
  }

  /** ... and inserts nothing but separators ... */
  lemma {:induction false} GroupStripsBack(d: string)
    requires AllDigits(d)
    ensures StripDots(Group(d)) == d
    decreases |d|
  {
    if |d| <= 3 {
      StripDotsOfDigits(d);
    } else {
      var h, t := d[..|d| - 3], d[|d| - 3..];
      GroupStripsBack(h);
      StripDotsExtend(Group(h), t);
      assert Group(d) == Group(h) + "." + t;
      assert d == h + t;
    }
  }

  /** ... of which there is at least one exactly when there are more than
      three digits. */
  lemma GroupHasDot(d: string)
    requires AllDigits(d)
    ensures '.' in Group(d) <==> |d| > 3
  {
    if |d| > 3 {
      var gh := Group(d[..|d| - 3]);
      assert Group(d)[|gh|] == '.';
    } else {
      assert forall i :: 0 <= i < |d| ==> d[i] != '.';
    }
  }

  /** `ars` on an integer: sign, grouped digits of the magnitude, ",00". */
  function Ars(v: int): (r: string)
    ensures |r| >= 4 && r[|r| - 3..] == ",00"
    ensures (r[0] == '-') <==> v < 0
  {
    var digits := NatToDecimal(Abs(v));
    GroupShape(digits);
    GroupStripsBack(digits);
    (if v < 0 then "-" else "") + Group(digits) + ",00"
  }

  /** `ars` applied to an amount with two decimals (in cents). */
  function ArsOfAmount(cents: int): (r: string)
    ensures |r| >= 4 && r[|r| - 3..] == ",00"
  {
    Ars(TruncateCents(cents))
  }

  /** Reads a formatted amount back: drop ",00", an optional leading '-',
      and every '.'; the rest must be a digit string. */
  function ParseArs(s: string): Option<int> {
    if |s| < 3 || s[|s| - 3..] != ",00" then None
    else
      var body := s[..|s| - 3];
      var negative := |body| > 0 && body[0] == '-';
      var digits := StripDots(if negative then body[1..] else body);
      if digits == [] || !AllDigits(digits) then None
      else
        var n: int := DecimalValue(digits);
        Some(if negative then -n else n)
  }

  /** No digit is lost: the formatted text reads back as the same integer,
      hence different integers never format alike. */
  lemma ArsRoundTrip(v: int)
    ensures ParseArs(Ars(v)) == Some(v)
  {
    var digits := NatToDecimal(Abs(v));
    GroupShape(digits);
    GroupStripsBack(digits);
    DecimalRoundTrip(Abs(v));
    var g := Group(digits);
    var r := Ars(v);
    var body := r[..|r| - 3];
    assert body == (if v < 0 then "-" else "") + g;
    if v < 0 {
      assert body[1..] == g;
    } else {
      assert body == g;
      assert IsDigit(g[0]);
    }
  }

  /** The text is exactly "-" for negatives, then the grouped digits of the
      magnitude, then ",00"; a separator appears iff |v| >= 1000. */
  lemma ArsShape(v: int)
    ensures var r := Ars(v);
            var sign := if v < 0 then 1 else 0;
            var g := r[sign..|r| - 3];
            && GroupedShape(g)
            && StripDots(g) == NatToDecimal(Abs(v))
            && ('.' in g <==> Abs(v) >= 1000)
  {
    var digits := NatToDecimal(Abs(v));
    GroupShape(digits);
    GroupStripsBack(digits);
    GroupHasDot(digits);
    ShortIffBelowThousand(Abs(v));
    var r := Ars(v);
    if v < 0 {
      assert r[1..|r| - 3] == Group(digits);
    } else {
      assert r[0..|r| - 3] == Group(digits);
    }
  }

  /** 2^53: every integer of at most this magnitude is an IEEE-754 double. */
  const DoubleExact := 9007199254740992

  /** The gap between consecutive doubles just above `n` (for n >= 2^53),
      and 1 below 2^53. */
  function Ulp(n: nat): (u: nat)
    ensures u >= 1
    ensures n < DoubleExact ==> u == 1
    ensures n >= 1 ==> u <= n
    decreases n
  {
    if n < DoubleExact then 1 else 2 * Ulp(n / 2)
  }

  /** `float(n)` for a non-negative integer: round to the nearest multiple
      of the spacing, ties to the even multiple (the one whose last
      significand bit is zero, i.e. a multiple of twice the spacing). */
  function RoundToDouble(n: nat): (r: nat)
    ensures n < DoubleExact ==> r == n
    ensures r == 0 <==> n == 0
    ensures exists k: nat :: r == k * Ulp(n)
    ensures 2 * (if r >= n then r - n else n - r) <= Ulp(n)
    ensures 2 * (if r >= n then r - n else n - r) == Ulp(n) ==>
      exists k: nat :: r == k * (2 * Ulp(n))
  {
    var u := Ulp(n);
    NearestMultiple(n, u);
    NearestIndex(n / u, n % u, u) * u
  }

  /** The multiple of `u` that RoundToDouble picks is a nearest one, and an
      even multiple on a tie. */
  lemma NearestMultiple(n: nat, u: nat)
    requires u >= 1
    ensures var r := NearestIndex(n / u, n % u, u) * u;
      && (exists k: nat :: r == k * u)
      && 2 * (if r >= n then r - n else n - r) <= u
      && (2 * (if r >= n then r - n else n - r) == u ==> exists k: nat :: r == k * (2 * u))
  {
    var q, rem := n / u, n % u;
    var k := NearestIndex(q, rem, u);
    var m := q * u;
    assert n == m + rem;
    if k == q {
      assert k * u == m;
    } else {
      NextMultiple(q, u);
      assert k * u == m + u;
    }
    EvenMultiple(k / 2, u);
  }

  lemma NextMultiple(q: nat, u: nat)
    ensures (q + 1) * u == q * u + u
  {
  }

  /** Which of the multiples `q` and `q + 1` of the spacing is nearer to
      `q * u + rem`; on a tie, the even one. */
  function NearestIndex(q: nat, rem: nat, u: nat): (k: nat)
    requires rem < u
    ensures k == q || k == q + 1
    ensures 2 * rem < u ==> k == q
    ensures 2 * rem > u ==> k == q + 1
    ensures 2 * rem == u ==> k % 2 == 0
  {
    if 2 * rem < u then q
    else if 2 * rem > u then q + 1
    else if q % 2 == 0 then q
    else q + 1
  }

  lemma EvenMultiple(h: nat, u: nat)
    ensures (2 * h) * u == h * (2 * u)
  {
  }

  /** `float(v)`: the rounding is symmetric around zero. */
  function ToDouble(v: int): (r: int)
    ensures Abs(v) < DoubleExact ==> r == v
    ensures r < 0 <==> v < 0
    ensures r == 0 <==> v == 0
  {
    var m: int := RoundToDouble(Abs(v));
    if v < 0 then -m else m
  }

  /** `f"{value:,.2f}"` on an int first converts it to a float, so the
      filter as written formats the nearest double, not the integer. */
  function ArsAsWritten(v: int): (r: string)
    ensures Abs(v) < DoubleExact ==> r == Ars(v)
  {
    Ars(ToDouble(v))
  }

  /** The first integer the conversion changes: 2^53 + 1 is shown as
      "9.007.199.254.740.992,00", a digit different from the amount. */
  lemma AsWrittenLosesDigits()
    ensures ArsAsWritten(DoubleExact + 1) != Ars(DoubleExact + 1)
    ensures ParseArs(ArsAsWritten(DoubleExact + 1)) == Some(DoubleExact)
  {
    assert Ulp(DoubleExact + 1) == 2;
    assert ToDouble(DoubleExact + 1) == DoubleExact;
    ArsRoundTrip(DoubleExact);
    ArsRoundTrip(DoubleExact + 1);
  }
}

=== FILE: qty_stepper.dfy ===
/** The product page's quantity stepper: plus/minus buttons that move the
    quantity input by one, kept between the input's `min` and `max`. */
module QtyStepper {
  import opened Wrappers

  const DefaultMin := 1
  const DefaultMax := 999

  /** `parseInt(attr, 10) || fallback`: a missing or unparsable attribute
      (None) and a zero both give the fallback. */
  function AttrOr(attr: Option<int>, fallback: int): (r: int)
    ensures attr.Some? && attr.value != 0 ==> r == attr.value
    ensures attr.None? || attr.value == 0 ==> r == fallback
  {
    if attr.None? || attr.value == 0 then fallback else attr.value
  }

  datatype Bounds = Bounds(lo: int, hi: int)

  /** The `min` and `max` the script reads once: never zero, and an
      attribute is used exactly when it parses to a non-zero number. */
  function ReadBounds(minAttr: Option<int>, maxAttr: Option<int>): (b: Bounds)
    ensures b.lo != 0 && b.hi != 0
    ensures minAttr.Some? && minAttr.value != 0 ==> b.lo == minAttr.value
    ensures maxAttr.Some? && maxAttr.value != 0 ==> b.hi == maxAttr.value
    ensures b.lo == DefaultMin <==> minAttr.None? || minAttr.value in {0, DefaultMin}
    ensures b.hi == DefaultMax <==> maxAttr.None? || maxAttr.value in {0, DefaultMax}
  {
    Bounds(AttrOr(minAttr, DefaultMin), AttrOr(maxAttr, DefaultMax))
  }

  /** `updateValue(val)`: `Math.max(min, Math.min(max, val))`. */
  function UpdateValue(b: Bounds, v: int): (r: int)
    ensures b.lo <= b.hi ==> b.lo <= r <= b.hi
    ensures b.lo <= v <= b.hi ==> r == v
    ensures v > b.hi && b.lo <= b.hi ==> r == b.hi
    ensures v < b.lo || b.lo > b.hi ==> r == b.lo
  {
    var capped := if v < b.hi then v else b.hi;
    if capped > b.lo then capped else b.lo
  }

  /** The plus button: one more, but never above `max`. */
  function Plus(b: Bounds, v: int): (r: int)
    ensures b.lo <= b.hi ==> b.lo <= r <= b.hi
    ensures b.lo - 1 <= v < b.hi ==> r == v + 1
    ensures v >= b.hi && b.lo <= b.hi ==> r == b.hi
    ensures b.lo > b.hi || v < b.lo - 1 ==> r == b.lo
  {
    UpdateValue(b, v + 1)
  }

  /** The minus button: one less, but never below `min`. */
  function Minus(b: Bounds, v: int): (r: int)
    ensures b.lo <= b.hi ==> b.lo <= r <= b.hi
    ensures b.lo < v <= b.hi + 1 ==> r == v - 1
    ensures v <= b.lo || b.lo > b.hi ==> r == b.lo
    ensures v > b.hi + 1 && b.lo <= b.hi ==> r == b.hi
  {
    UpdateValue(b, v - 1)
  }

  /** The buttons stop at the bounds, step by one inside them, and undo
      each other away from the bounds. */
  lemma StepsAtAndInsideBounds(b: Bounds, v: int)
    requires b.lo <= b.hi
    ensures Plus(b, b.hi) == b.hi
    ensures Minus(b, b.lo) == b.lo
    ensures b.lo <= v < b.hi ==> Plus(b, v) == v + 1 && Minus(b, Plus(b, v)) == v
    ensures b.lo < v <= b.hi ==> Minus(b, v) == v - 1 && Plus(b, Minus(b, v)) == v
  {
  }

  /** Clamping is idempotent and monotone. */
  lemma UpdateValueIdempotentMonotone(b: Bounds, v: int, w: int)
    ensures UpdateValue(b, UpdateValue(b, v)) == UpdateValue(b, v)
    ensures v <= w ==> UpdateValue(b, v) <= UpdateValue(b, w)
  {
  }

  /** With no usable attributes the stepper allows 1 to 999. */
  lemma DefaultBounds(minAttr: Option<int>, maxAttr: Option<int>)
    requires minAttr.None? || minAttr == Some(0)
    requires maxAttr.None? || maxAttr == Some(0)
    ensures ReadBounds(minAttr, maxAttr) == Bounds(1, 999)
  {
  }
}

=== FILE: settings.dfy ===
/** `getattr(settings, "ROOT_DOMAIN", "catalogico.shop")`: the configured
    root domain, or the built-in default when the setting is absent. */
module Settings {
  import opened Wrappers

  const DefaultRootDomain := "catalogico.shop"

  function RootDomain(setting: Option<string>): (r: string)
    ensures setting.None? ==> r == DefaultRootDomain
    ensures setting.Some? ==> r == setting.value
  {
    setting.GetOr(DefaultRootDomain)
  }
}

=== FILE: slugs.dfy ===
/** Slug filling in `Category.save` and `Product.save`. `slugify` is
    Django's and is taken as a parameter; the database is represented by the
    finite set of product slugs already stored. */
module Slugs {
  import opened Decimal

  /** `Category.save`: a blank slug becomes `slugify(name)`; uniqueness is
      left to the database constraint. */
  function CategorySlug(slug: string, name: string, slugify: string -> string): (r: string)
    ensures slug != "" ==> r == slug
    ensures slug == "" ==> r == slugify(name)
  {
    if slug == "" then slugify(name) else slug
  }

  /** The `k`-th name `Product.save` tries: `base`, then `base-1`, `base-2`, ... */
  function Candidate(base: string, k: nat): (r: string)
    ensures k > 0 ==> |r| > |base|
  {
    if k == 0 then base else base + "-" + NatToDecimal(k)
  }

  /** Different attempts produce different names. */
  lemma CandidateInjective(base: string, j: nat, k: nat)
    requires j != k
    ensures Candidate(base, j) != Candidate(base, k)
  {
    if j > 0 && k > 0 && Candidate(base, j) == Candidate(base, k) {
      var n := |base| + 1;
      assert NatToDecimal(j) == Candidate(base, j)[n..];
      assert NatToDecimal(k) == Candidate(base, k)[n..];
      NatToDecimalInjective(j, k);
    }
  }

  /** The first `count` names tried. */
  ghost function Tried(base: string, count: nat): set<string> {
    set k | 0 <= k < count :: Candidate(base, k)
  }

  lemma {:induction false} TriedSize(base: string, count: nat)
    ensures |Tried(base, count)| == count
  {
    if count > 0 {
      TriedSize(base, count - 1);
      assert Tried(base, count) == Tried(base, count - 1) + {Candidate(base, count - 1)};
      if Candidate(base, count - 1) in Tried(base, count - 1) {
        var k :| 0 <= k < count - 1 && Candidate(base, k) == Candidate(base, count - 1);
        CandidateInjective(base, k, count - 1);
      }
    }
  }

  /** The `while Product.objects.filter(slug=slug).exists()` loop: the first
      candidate name that is not taken. It ends because every taken name is
      counted once among the finitely many existing slugs. */
  method UniqueSlug(base: string, existing: set<string>) returns (slug: string)
    ensures slug !in existing
    ensures base !in existing ==> slug == base
    ensures exists k: nat :: slug == Candidate(base, k) &&
              forall j: nat :: j < k ==> Candidate(base, j) in existing
  {
    slug := base;
    var counter: nat := 1;
    while slug in existing
      invariant slug == Candidate(base, counter - 1)
      invariant forall j: nat :: j < counter - 1 ==> Candidate(base, j) in existing
      invariant Tried(base, counter - 1) <= existing
      invariant counter - 1 <= |existing|
      decreases |existing| - (counter - 1)
    {
      assert Tried(base, counter) == Tried(base, counter - 1) + {slug};
      TriedSize(base, counter);
      SubsetSize(Tried(base, counter), existing);
      slug := base + "-" + NatToDecimal(counter);
      counter := counter + 1;
    }
  }

  lemma SubsetSize(a: set<string>, b: set<string>)
    requires a <= b
    ensures |a| <= |b|
  {
    assert b == a + (b - a);
  }

  /** `Product.save`: a blank slug gets the first unused name among
      slugify(name), slugify(name)-1, slugify(name)-2, ...; a non-blank
      slug is kept as it is. */
  method ProductSlug(slug: string, name: string, slugify: string -> string, existing: set<string>)
    returns (r: string)
    ensures slug != "" ==> r == slug
    ensures slug == "" ==> r !in existing
    ensures slug == "" && slugify(name) !in existing ==> r == slugify(name)
    ensures slug == "" ==>
      exists k: nat :: r == Candidate(slugify(name), k) &&
        forall j: nat :: j < k ==> Candidate(slugify(name), j) in existing
  {
    if slug == "" {
      r := UniqueSlug(slugify(name), existing);
    } else {
      r := slug;
    }
  }
}

=== FILE: tenant.dfy ===
/** `TenantMiddleware.process_request`: resolves the store of a request from
    its Host header. `{slug}.{root}` selects the active store with that slug;
    the root domain itself and `www.{root}` are the landing site. */
module Tenant {
  import opened Wrappers
  import opened Text
  import Settings

  /** An active store, as returned by the store lookup. */
  datatype Store = Store(id: int, slug: string)

  /** What the middleware does with the request: let it continue with
      `request.store` set as given, or answer 404 "store not found". */
  datatype Resolution = Continue(store: Option<Store>) | NotFound

  /** The host as compared: the part before the first ':' (the port is
      dropped), lower-cased. */
  function HostName(rawHost: string): (h: string)
    ensures ':' !in rawHost ==> h == Lower(rawHost)
    ensures ':' !in h
    ensures ':' in rawHost ==> |h| < |rawHost| && rawHost[|h|] == ':'
    ensures |h| <= |rawHost|
    ensures forall i :: 0 <= i < |h| ==> h[i] == LowerChar(rawHost[i])
  {
    Lower(BeforeFirst(rawHost, ':'))
  }

  /** The lower-cased root domain from the settings. */
  function Root(setting: Option<string>): string {
    Lower(Settings.RootDomain(setting))
  }

  predicate IsLanding(host: string, root: string) {
    host == root || host == "www." + root
  }

  /** `host` is the subdomain `sub` followed by `.{root}`. */
  predicate IsSubdomainOf(host: string, root: string, sub: string) {
    host == sub + "." + root
  }

  /** The subdomain is the host with the `.{root}` suffix removed, and it is
      the only string that splits the host this way. */
  lemma SubdomainUnique(host: string, root: string, sub: string)
    requires EndsWith(host, "." + root) && sub == host[..|host| - |root| - 1]
    ensures IsSubdomainOf(host, root, sub)
    ensures forall other :: IsSubdomainOf(host, root, other) ==> other == sub
  {
  }

  /** The resolution for an already normalised host and root domain.
      `Store.objects.get(slug=subdomain, is_active=True)` is the lookup in
      `activeStores`, a map from slug to active store. */
  function ResolveHost(host: string, root: string, activeStores: map<string, Store>): (r: Resolution)
    ensures IsLanding(host, root) ==> r == Continue(None)
    ensures forall sub :: IsSubdomainOf(host, root, sub) && !IsLanding(host, root) ==>
      r == (if sub == "" || sub == "www" then Continue(None)
            else if sub in activeStores then Continue(Some(activeStores[sub]))
            else NotFound)
    ensures (forall sub :: !IsSubdomainOf(host, root, sub)) ==> r == Continue(None)
  {
    if IsLanding(host, root) then Continue(None)
    else
      var suffix := "." + root;
      if EndsWith(host, suffix) then
        var sub := host[..|host| - |suffix|];
        SubdomainUnique(host, root, sub);
        if sub != "" && sub != "www" then
          if sub in activeStores then Continue(Some(activeStores[sub])) else NotFound
        else Continue(None)
      else Continue(None)
  }

  /** `process_request`: the host is compared without its port and in lower
      case, against the lower-cased root domain. */
  function Resolve(rawHost: string, rootSetting: Option<string>, activeStores: map<string, Store>)
    : (r: Resolution)
    ensures var host, root := HostName(rawHost), Root(rootSetting);
      r.NotFound? <==>
        exists sub :: IsSubdomainOf(host, root, sub) && !IsLanding(host, root)
                      && sub != "" && sub != "www" && sub !in activeStores
    ensures var host, root := HostName(rawHost), Root(rootSetting);
      r.Continue? && r.store.Some? <==>
        exists sub :: IsSubdomainOf(host, root, sub) && !IsLanding(host, root)
                      && sub != "" && sub != "www" && sub in activeStores
                      && r == Continue(Some(activeStores[sub]))
  {
    var host, root := HostName(rawHost), Root(rootSetting);
    var suffix := "." + root;
    if EndsWith(host, suffix) then
      SubdomainUnique(host, root, host[..|host| - |suffix|]);
      ResolveHost(host, root, activeStores)
    else
      ResolveHost(host, root, activeStores)
  }

  /** The port in the Host header never influences the resolution. */
  lemma PortIgnored(host: string, port: string, rootSetting: Option<string>,
                    activeStores: map<string, Store>)
    requires ':' !in host
    ensures Resolve(host + ":" + port, rootSetting, activeStores)
            == Resolve(host, rootSetting, activeStores)
  {
    BeforeFirstIgnoresTail(host, ':', port);
  }

  /** Neither the case of the Host header nor that of the configured root
      domain influences the resolution. */
  lemma CaseIgnored(host: string, root: string, activeStores: map<string, Store>)
    ensures Resolve(Lower(host), Some(Lower(root)), activeStores)
            == Resolve(host, Some(root), activeStores)
  {
    BeforeFirstLower(host, ':');
    LowerIdempotent(BeforeFirst(host, ':'));
    LowerIdempotent(root);
  }
}

=== FILE: text.dfy ===
/** Small string operations the Python and JavaScript code takes from their
    standard libraries (`startswith`, `endswith`, `split`, `lower`). */
module Text {

  predicate StartsWith(s: string, prefix: string) {
    |prefix| <= |s| && s[..|prefix|] == prefix
  }

  predicate EndsWith(s: string, suffix: string) {
    |suffix| <= |s| && s[|s| - |suffix|..] == suffix
  }

  /** Python's `s.split(c)[0]`: everything before the first `c`. */
  function BeforeFirst(s: string, c: char): (r: string)
    ensures c !in r
    ensures StartsWith(s, r)
    ensures c !in s ==> r == s
    ensures c in s ==> |r| < |s| && s[|r|] == c
  {
    if s == [] then []
    else if s[0] == c then []
    else [s[0]] + BeforeFirst(s[1..], c)
  }

  /** Python's `s.split(c)[-1]`: everything after the last `c`. */
  function AfterLast(s: string, c: char): (r: string)
    ensures c !in r
    ensures EndsWith(s, r)
    ensures c !in s ==> r == s
    ensures c in s ==> |r| < |s| && s[|s| - |r| - 1] == c
  {
    if s == [] then []
    else if s[|s| - 1] == c then []
    else AfterLast(s[..|s| - 1], c) + [s[|s| - 1]]
  }

  /** Lower-casing of one ASCII letter; other characters are unchanged. */
  function LowerChar(c: char): (r: char)
    ensures !('A' <= r <= 'Z')
    ensures !('A' <= c <= 'Z') ==> r == c
  {
    if 'A' <= c <= 'Z' then (c as int + 32) as char else c
  }

  /** Python's `str.lower()` restricted to ASCII letters. */
  function Lower(s: string): (r: string)
    ensures |r| == |s|
    ensures forall i :: 0 <= i < |s| ==> r[i] == LowerChar(s[i])
  {
    seq(|s|, i requires 0 <= i < |s| => LowerChar(s[i]))
  }

  /** Lowering twice is lowering once. */
  lemma LowerIdempotent(s: string)
    ensures Lower(Lower(s)) == Lower(s)
  {
  }

  /** Whatever follows the first `c` is ignored by BeforeFirst. */
  lemma {:induction false} BeforeFirstIgnoresTail(h: string, c: char, tail: string)
    requires c !in h
    ensures BeforeFirst(h + [c] + tail, c) == h
  {
    if h != [] {
      assert (h + [c] + tail)[1..] == h[1..] + [c] + tail;
      BeforeFirstIgnoresTail(h[1..], c, tail);
    }
  }

  /** Lower-casing commutes with cutting at a character that is not a letter. */
  lemma BeforeFirstLower(s: string, c: char)
    requires !('A' <= c <= 'Z') && !('a' <= c <= 'z')
    ensures BeforeFirst(Lower(s), c) == Lower(BeforeFirst(s, c))
  {
  }
}

=== FILE: wrappers.dfy ===
/** The optional-value datatype shared by every module of the model. It stands
    for Python's `None` and for JavaScript's `NaN`/missing attribute results. */
module Wrappers {

  datatype Option<+T> = None | Some(value: T) {

    /** Returns the value held in Some, or `default` for None. */
    function GetOr(default: T): T {
      match this
      case Some(v) => v
      case None => default
    }
  }
}
